=== FILE: README.md ===
# lynxgate quota gateway, modelled in Dafny

lynxgate is a small HTTP gateway. It issues API tokens per account, each with
a monthly request quota, and answers whether a presented token may make
another request. The credentials live in one MySQL table `token` with the
columns `account_id`, `token` (the AES-encrypted token), `quota` and
`quota_usage`, besides an auto-increment `id` primary key. There is no
uniqueness constraint on `account_id` or on `token`.

This project models the quota-authorization core as pure functions over an
immutable table (`seq<Row>`). There are two builds:

- **the package build** (`db/token.go`, module `TokenDb`). Its `ValidateToken`
  first zeroes the presented token's usage when the day of the month is 1.
- **the legacy single-file build** (`main.go`, module `LegacyMain`). It has the
  same operations without that reset, and its `getTokens` ends the process on
  an undecryptable row instead of returning "".

The operations the two builds share are defined once, in module `Gateway`:

- the quota check;
- create, delete and get;
- token generation.

Modules:

| module | file | contents |
|---|---|---|
| `Wrappers` | wrappers.dfy | `Option` |
| `Crypto` | crypto.dfy | symbolic AES: a ciphertext is the free constructor `Sealed(key, plain)` |
| `Model` | model.dfy | the `User` and `Token` structs and their zero values |
| `Store` | store.dfy | the table and the SQL it is queried with: first match (`QueryRow`), `COUNT(*)`, `DELETE`, `UPDATE`; store failures |
| `Gateway` | gateway.dfy | verdicts, the quota check, token generation, create/delete/get, the row scan |
| `TokenDb` | token_db.dfy | the package `ValidateToken` with the day-1 reset; error-returning `GetTokens` |
| `LegacyMain` | legacy_main.dfy | the legacy `getTokens` |
| `Sessions` | sessions.dfy | repeated validation: quota exhaustion, the day-1 reset |
| `Lifecycle` | lifecycle.dfy | create then validate, create twice, delete then read |
| `Invariants` | invariants.dfy | a consistent table and its preservation by every operation |

How Go constructs are rendered:

- A Go `(value, error)` pair is a `Reply(value, err)`.
- An operation that writes returns an `Effect(result, table)`.
- A statement the database rejects is modelled by naming it in the `failing`
  set. Each rejected statement takes the error branch the code has for it, and
  leaves the table unchanged.
- A `log.Fatal` exit becomes a precondition.

The verdicts are:

| verdict | code | HTTP status |
|---|---|---|
| `Authorized` | 0 | 200 |
| `LimitExceeded` | 1 | 429 when no error is returned; with an error (failed reset or increment) the handler answers 401 |
| `Unauthorized` | 2 | 401 |

Three facts about the code that a reader might not expect:

- The code has no monthly reset scheduler. The only reset is the in-request reset
  on day 1. It zeroes the usage of the presented token only, and it runs on
  every request that day. As a result, on day 1 a limited token is never
  refused (`Sessions.DayOneNeverRefuses`).
- The code does not restrict the quota to be non-negative. A negative quota is accepted
  on create and then always refused (`TokenDb.NegativeQuotaRefused`).
- `GetToken` on an unknown account returns the zero `Token` and no error.

## Model

| member | source | states |
|---|---|---|
| Crypto.Enc | db/token.go:163-167 | the stored ciphertext decrypts to the token under the key that sealed it, and under no other key |
| Crypto.Dec | db/token.go:28-31 | decryption succeeds exactly on ciphertexts sealed under the key, and returns their plaintext |
| Crypto.EncInjective | db/token.go:28-31 | the lookup `token = AES_ENCRYPT(?, key)` can only match the row whose token is the presented one |
| Store.First | db/token.go:113-122 | `QueryRow` reads the first matching row: it matches, no earlier row does, and none is found only when no row matches |
| Store.Count | db/token.go:148-154 | `COUNT(*)` is zero exactly when no row matches and equals the row count exactly when all do |
| Store.Delete | db/token.go:65-70 | `DELETE ... WHERE` shortens the table by exactly the number of matching rows |
| Store.DeleteMembers | db/token.go:65-70 | the rows a `DELETE ... WHERE` leaves are exactly the rows that do not match |
| Store.DeleteSnoc | db/token.go:65-70 | a row at the end of the table survives a delete exactly when it does not match, after the survivors before it |
| Store.Update | db/token.go:53-58 | `UPDATE ... SET quota_usage` rewrites the usage of exactly the matching rows and touches no other column |
| Store.DeleteAppend | db/token.go:65-70 | deleting distributes over a split of the table, so surviving rows keep their order |
| Store.DeleteNothing | db/token.go:65-75 | a delete that matches nothing leaves the table as it is |
| Store.DeleteTwice | db/token.go:65-75 | deleting twice by the same condition is deleting once |
| Store.UsageOnlyKeepsWhere | db/token.go:53-58 | after a usage-only write every lookup and count finds the same rows as before |
| Store.FirstAgrees | db/token.go:28-36 | a lookup depends only on which rows match: two tables that match at the same positions find the same first row |
| Store.CountAgrees | db/token.go:148-154 | a count depends only on which rows match |
| Store.ResetTwice | db/token.go:18-21 | running the day-1 reset on a table it has already reset changes nothing |
| Store.UpdateKeepsFirst | db/token.go:17-26 | the day-1 reset and the increment leave every lookup and count unchanged |
| Gateway.Code | api/handlers.go:42-52 | the three verdicts map to 0, 1 and 2, which the handler reads as OK, limit exceeded and unauthorized |
| Gateway.QuotaCheck | main.go:142-178 | unknown token: 2 with the table unchanged; quota 0: 0 with no error and no count; usage at or over quota: 1 with the table unchanged; otherwise 0 with exactly the token's rows incremented, and such an admission always writes; only the lookup and the increment can fail, an unknown token is not an error, and a failed increment returns 1 with its error; every error leaves the table unchanged |
| Gateway.AdmissionCounts | main.go:164-177 | a limited token under its quota is admitted and its rows are incremented |
| Gateway.RefusalKeepsTable | main.go:164-166 | a token at or over a positive quota, or with a negative quota, is refused with nothing written |
| Gateway.UnlimitedKeepsTable | main.go:160-162 | a token with quota 0 is admitted with nothing written |
| Gateway.StripHyphens | main.go:240-244 | the result has no '-' and has exactly the input's other characters |
| Gateway.GenerateToken | db/token.go:134-138 | the token is the UUID without hyphens: no '-' in it, every other character of the UUID kept |
| Gateway.StripNothing | main.go:242 | a string without hyphens is its own token |
| Gateway.StripIdempotent | main.go:242 | removing hyphens a second time is a no-op |
| Gateway.StripAppend | main.go:242 | hyphen removal works piecewise on a concatenation |
| Gateway.HexGroup | main.go:241 | each group of a canonical UUID string is lower-case hex with no hyphen |
| Gateway.StripGroup | main.go:242 | hyphen removal splices out one hyphen after a hyphen-free prefix |
| Gateway.StripInnerGroup | main.go:242 | an inner 4-digit group of a canonical UUID survives hyphen removal and the hyphen after it is dropped |
| Gateway.GeneratedTokenShape | main.go:240-244 | for a canonical 36-character UUID the token is its five groups concatenated, 32 lower-case hex digits |
| Gateway.CreateToken | db/token.go:140-173 | an existing account is refused with the table unchanged; success is exactly one appended row with usage 0 and the plaintext token returned; every error returns the zero User |
| Gateway.CountAppend | db/token.go:163-167 | an inserted row adds one to a count exactly when it matches |
| Gateway.DeleteToken | db/token.go:65-76 | the table becomes the store's DELETE by account: every row of the account removed, every other row kept in order, and a delete with no match still succeeds; a failed delete changes nothing |
| Gateway.GetToken | db/token.go:113-132 | an unknown account yields the zero Token; otherwise the first row of the account, with its token decrypted and quota and usage copied |
| Gateway.Present | db/token.go:79-81 | one scanned row: account, quota and usage copied; the token decrypted, or "" when it does not decrypt |
| Gateway.ScanRows | db/token.go:89-104 | one Token per row, in table order |
| TokenDb.ValidateToken | db/token.go:16-63 | off day 1 this is the legacy check; on day 1 a committed reset is followed by the legacy check on the reset table, so the reset stays whatever that check then does; a failed reset returns 1 with the error and changes nothing; an unknown token changes nothing; only the presented token's usage changes |
| TokenDb.DayOneAdmits | db/token.go:17-62 | on day 1 a known token with a positive quota is admitted and ends with usage 1 |
| TokenDb.DayOneEffect | db/token.go:17-62 | on day 1 a known token with a positive quota is admitted, and the table is the reset followed by one increment |
| TokenDb.NegativeQuotaRefused | db/token.go:45-51 | a negative quota is refused on every day, with only the day-1 reset written |
| TokenDb.UnlimitedNotCounted | db/token.go:45-47 | quota 0 is admitted on every day and never counted |
| TokenDb.GetTokens | db/token.go:78-111 | a failed query returns the error; otherwise one entry per row in order, undecryptable tokens as "" |
| LegacyMain.GetTokens | main.go:193-217 | one entry per row in order, each with the plaintext of its stored token |
| Sessions.Validate | db/token.go:16-63 | a validation by either build writes nothing but usage |
| Sessions.Repeat | main.go:142-178 | n validations give n replies and keep the number of rows |
| Sessions.RepeatUsageOnly | main.go:168-177 | n validations by either build write nothing but the usage column |
| Sessions.LimitedStep | main.go:160-177 | one validation of a limited token without the reset is either an admission or a refusal |
| Sessions.LegacyAdvance | main.go:160-177 | one legacy call on a limited token within its quota: admitted exactly when usage is below the quota, the row stays the first match, and its usage becomes min(u + 1, Q) |
| Sessions.OthersUntouched | db/token.go:53-58 | a validation by either build leaves every row of another token as it was |
| Sessions.SameStepOffDayOne | db/token.go:17 | off day 1 one package call is exactly one legacy call |
| Sessions.QuotaSequence | main.go:160-177 | with quota Q and usage u, reply j of any run is an admission when j < Q - u and a refusal otherwise |
| Sessions.QuotaUsage | main.go:164-177 | after n calls usage is min(u + n, Q) |
| Sessions.RepeatOthersUntouched | db/token.go:53-58 | any run of validations of one token, by either build, leaves every other token's rows as they were |
| Sessions.QuotaOfQ | main.go:160-177 | from usage 0, calls 1..Q are admitted, call Q + 1 is refused and usage ends at Q |
| Sessions.ExhaustedStaysRefused | main.go:164-166 | an exhausted token is refused on every call and the table never changes |
| Sessions.UnlimitedRun | main.go:160-162 | a token with quota 0 is admitted on every call, however many, by the legacy build or off day 1, and the table never changes |
| Sessions.DayOneUnlimitedRun | db/token.go:17-26 | on day 1 a token with quota 0 is admitted on every call, and the only write of the whole run is the reset of its usage to 0 |
| Sessions.OffDayOneAgrees | db/token.go:16-26 | off day 1 the package build answers every sequence of calls exactly as the legacy build |
| Sessions.DayOneStep | db/token.go:17-26 | on day 1 one call admits a limited token and leaves it at usage 1 |
| Sessions.DayOneNeverRefuses | db/token.go:17-26 | on day 1 every reply of a run of calls for a limited token is an admission |
| Sessions.DayOneUsage | db/token.go:17-26 | on day 1, after any positive number of calls, the token's rows stand at usage 1 |
| Lifecycle.FirstOfAppended | db/token.go:163-167 | a freshly inserted row is the first match for its token and its account |
| Lifecycle.FreshRowValidates | db/token.go:16-63 | a fresh row is admitted by either build on any day unless its quota is negative, and counted once if limited |
| Lifecycle.CreateThenValidate | main.go:246-279 | the token handed back by create is admitted by either build on any day (refused only for a negative quota), and the account then reads back with that token, its quota, and usage 1 if limited, 0 otherwise |
| Lifecycle.CreateTwice | main.go:254-267 | a second create for one account is refused and the account keeps one row |
| Lifecycle.DeleteThenGet | main.go:180-191 | after a delete the account reads back as the zero Token |
| Lifecycle.DeleteIdempotent | db/token.go:65-76 | deleting an account twice is deleting it once, and both calls succeed |
| Invariants.ConsistentReads | db/token.go:113-131 | in a consistent table every account reads back, within its quota |
| Invariants.UsageOnlyKeepsKeys | db/token.go:53-58 | writing usage keeps accounts and tokens distinct and decryptable |
| Invariants.OnlyFirstMatches | db/token.go:28-36 | with distinct tokens the row found by the lookup is the only row with that ciphertext |
| Invariants.QuotaCheckPreserves | db/token.go:28-62 | the quota check never lets usage pass a positive quota nor count an unlimited token |
| Invariants.ResetPreserves | db/token.go:17-26 | the day-1 reset keeps the table consistent |
| Invariants.ValidatePreserves | db/token.go:16-63 | validation by either build, on any day and whatever fails, keeps the table consistent |
| Invariants.DeleteKeepsUnique | db/token.go:65-70 | deleting rows keeps the remaining accounts and tokens distinct |
| Invariants.SnocUnique | db/token.go:148-167 | appending a row whose account and token are new keeps accounts and tokens distinct |
| Invariants.DeletePreserves | db/token.go:65-76 | a delete keeps the table consistent |
| Invariants.CreatePreserves | db/token.go:140-173 | a create with a fresh token keeps the table consistent: the count check keeps accounts unique |

## Left out

- HTTP routing, JSON encoding and status codes (`api/handlers.go`, `main.go:37-140`). These are I/O; only the verdict codes are modelled.
- `db/db.go`: the connection pool, ping and environment lookup are I/O and configuration. Its `CREATE TABLE` (db/db.go:54-61) is cited only for the columns and the constraints it lacks.
- The AES cipher. Encryption is a free constructor: deterministic and injective, as the lookups need. Two further properties are stronger than AES, which is deterministic but not authenticated:
  - the same plaintext under two keys gives two ciphertexts;
  - decryption under a wrong key is NULL, never garbage.
- Randomness of `uuid.New()`. The UUID string is a parameter. The lemmas that need a token to be new require it, in place of UUID uniqueness.
- `time.Now().Day()`. The day of the month is a parameter (`TokenDb.Day`). Go's local time zone is not modelled.
- Concurrency. Calls are sequential, so two races are not modelled:
  - between the lookup and the increment in `ValidateToken`;
  - between the count and the insert in `CreateToken`.
- The process-exit paths. These are the `log.Fatal` calls in `GetToken`, `CreateToken` and the legacy `getTokens`, and they are modelled as preconditions:
  - Gateway.GetToken requires the account's first row to decrypt under the key (`Readable`).
  - LegacyMain.GetTokens requires every row to decrypt under the key (`SealedUnder`).
  - Gateway.CreateToken requires a non-empty key.
  - A failed `Query` in the legacy `getTokens` is not modelled.
- Gateway.CreateToken takes the key as a parameter; in the code, the package `CreateToken` reads it from the environment itself.
- The legacy `initializeDB` builds an error for a missing key and then drops it (`main.go:281-285`). This sits outside the modelled operations, and the model takes the key as given.
- The 32-bit `INT` columns are not modelled, so `quota_usage + 1` overflowing in the database is left out. Quota and usage are unbounded integers.
- Row order. SQL returns rows in an unspecified order. The model uses insertion order, and `QueryRow` takes the first match in that order.
- The failure of `rows.Scan` in the package `GetTokens` is not modelled: with `COALESCE`, a scan of the modelled columns cannot fail. A failed query is modelled.
- The failure `rows.Err` reports after iteration in the package `GetTokens` (db/token.go:106-108), a connection lost mid-scan, is left out with the other store failures that carry no further logic.
- The `id` primary key column is not modelled: no operation reads or writes it, and the model's row order stands in for it.
- Gateway.CreateToken: assumes a binary collation on `account_id` (exact, case- and space-sensitive comparison) and account ids of at most 255 characters. The table is created without a `COLLATE` clause (db/db.go:54-61), so MySQL's default case-insensitive collation applies and "ACME" counts as an existing "acme"; a longer id is rejected by `VARCHAR(255)` in strict mode. The model compares ids exactly and accepts any length; Lifecycle.CreateThenValidate inherits this.
- Gateway.DeleteToken: the same binary-collation assumption; under the default collation a delete of "ACME" would also remove the rows of "acme".
- Gateway.GetToken: the same binary-collation assumption; under the default collation a read of "ACME" would find the "acme" row.
- A nil slice and an empty slice of tokens are the same empty sequence.

=== FILE: crypto.dfy ===
/**
 The symmetric encryption the database applies to stored tokens
 (MySQL's AES_ENCRYPT / AES_DECRYPT under the process-wide key).

 The cipher itself is not modelled. A ciphertext is a free constructor
 `Sealed(key, plain)`: equal ciphertexts come from equal (key, plaintext)
 pairs, so encryption is deterministic and injective by construction, and
 decryption under the right key recovers the plaintext.
 */
module Crypto {
  import opened Wrappers

  /** The process-wide encryption key (MYSQL_ENCRYPTION_KEY). */
  type Key = string

  /** The VARBINARY value stored in the `token` column. */
  datatype Ciphertext = Sealed(key: Key, plain: string)

  /** AES_ENCRYPT(plain, key). */
  function Enc(key: Key, plain: string): (c: Ciphertext)
    ensures Dec(key, c) == Some(plain)
    ensures forall k :: k != key ==> Dec(k, c) == None
  {
    Sealed(key, plain)
  }

  /** AES_DECRYPT(c, key): NULL (None) when `c` was not produced under `key`. */
  function Dec(key: Key, c: Ciphertext): (r: Option<string>)
    ensures r.Some? ==> c == Sealed(key, r.value)
    ensures r.None? ==> forall p :: Sealed(key, p) != c
  {
    if c.key == key then Some(c.plain) else None
  }

  /** Equal ciphertexts under one key have equal plaintexts. */
  lemma EncInjective(key: Key, p: string, q: string)
    requires Enc(key, p) == Enc(key, q)
    ensures p == q
  {
    assert Dec(key, Enc(key, p)) == Some(p);
  }
}

=== FILE: gateway.dfy ===
/**
 The token logic shared, statement for statement, by the package build
 (db/token.go) and the legacy single-file build (main.go): the quota check,
 token generation, creation, deletion and the reads.
 */
module Gateway {
  import opened Wrappers
  import opened Crypto
  import opened Model
  import opened Store

  /** The validation verdict; callers map it to 200, 429 and 401. */
  datatype Verdict = Authorized | LimitExceeded | Unauthorized

  /** The integer the Go functions return for each verdict. */
  function Code(v: Verdict): (n: int)
    ensures 0 <= n <= 2
    ensures n == 0 <==> v == Authorized
    ensures n == 1 <==> v == LimitExceeded
  {
    match v
    case Authorized => 0
    case LimitExceeded => 1
    case Unauthorized => 2
  }

  /** The quota rule: a row admits a request when unlimited or not yet exhausted. */
  predicate Admits(row: Row)
  {
    row.quota == 0 || row.quotaUsage < row.quota
  }

  /**
   Look the presented token up by its ciphertext, apply the quota rule to the
   first matching row and, for a limited quota, add one to the usage of every
   row with that ciphertext. This is the legacy `validateToken` in full and the
   part of the package `ValidateToken` after its day-1 reset.
   */
  function QuotaCheck(t: Table, key: Key, presented: string, failing: set<Stmt>): (r: Effect<Reply<Verdict>>)
    // A failed lookup is reported as unauthorized, with the error.
    ensures SelectByToken in failing ==> r == Effect(Reply(Unauthorized, Some(StoreFailure(SelectByToken))), t)
    // Unknown token: unauthorized, nothing changes.
    ensures First(t, TokenIs(Enc(key, presented))).None? ==> r.table == t && r.result.value == Unauthorized
    ensures r.result.value == Unauthorized <==>
              SelectByToken in failing || First(t, TokenIs(Enc(key, presented))).None?
    // Known token: the verdict follows the first matching row.
    ensures SelectByToken !in failing && First(t, TokenIs(Enc(key, presented))).Some? ==>
              var row := t[First(t, TokenIs(Enc(key, presented))).value];
              && (r.result.value == Authorized <==> row.quota == 0 || (row.quotaUsage < row.quota && IncrementUsage !in failing))
              && (r.result.value == LimitExceeded <==> !Admits(row) || (row.quota != 0 && IncrementUsage in failing))
              && (row.quota == 0 ==> r.table == t && r.result == Reply(Authorized, None))
              && (!Admits(row) ==> r.table == t && r.result.err == None)
              // a healthy admission against a limited quota always writes, and a
              // failed increment is reported as 1 with its error, nothing written
              && (row.quota != 0 && r.result == Reply(Authorized, None) ==> r.table != t)
              && (row.quota != 0 && Admits(row) && IncrementUsage in failing ==>
                    r == Effect(Reply(LimitExceeded, Some(StoreFailure(IncrementUsage))), t))
    // Only usage is ever written.
    ensures UsageOnly(t, r.table)
    // The table changes only through a successful admission against a limited quota ...
    ensures r.table != t ==> r.result == Reply(Authorized, None)
    // ... and then every row with that ciphertext gains exactly one, the rest stay.
    ensures r.table != t ==>
              && |r.table| == |t|
              && (forall i :: 0 <= i < |t| && t[i].token != Enc(key, presented) ==> r.table[i] == t[i])
              && (forall i :: 0 <= i < |t| && t[i].token == Enc(key, presented) ==>
                    r.table[i].quotaUsage == t[i].quotaUsage + 1)
    // Only the lookup and the increment can fail; an unknown token is not an error.
    ensures r.result.err.Some? ==>
              r.result.err.value.StoreFailure? && r.result.err.value.stmt in {SelectByToken, IncrementUsage}
    ensures SelectByToken !in failing && First(t, TokenIs(Enc(key, presented))).None? ==> r.result.err == None
    // Errors leave the table unchanged and name a failing statement.
    ensures r.result.err.Some? ==> r.table == t && r.result.err.value.StoreFailure? && r.result.err.value.stmt in failing
  {
    var c := Enc(key, presented);
    if SelectByToken in failing then
      Effect(Reply(Unauthorized, Some(StoreFailure(SelectByToken))), t)
    else match First(t, TokenIs(c))
      case None => Effect(Reply(Unauthorized, None), t)
      case Some(i) =>
        if t[i].quota == 0 then Effect(Reply(Authorized, None), t)
        else if t[i].quotaUsage >= t[i].quota then Effect(Reply(LimitExceeded, None), t)
        else if IncrementUsage in failing then Effect(Reply(LimitExceeded, Some(StoreFailure(IncrementUsage))), t)
        else
          var r := Update(t, TokenIs(c), AddOne);
          assert r[i] != t[i];
          Effect(Reply(Authorized, None), r)
  }

  /** A limited, unexhausted first match is admitted and charged to every row with that ciphertext. */
  lemma AdmissionCounts(t: Table, key: Key, presented: string, failing: set<Stmt>)
    requires SelectByToken !in failing && IncrementUsage !in failing
    requires First(t, TokenIs(Enc(key, presented))).Some?
    requires var row := t[First(t, TokenIs(Enc(key, presented))).value];
             row.quota != 0 && row.quotaUsage < row.quota
    ensures QuotaCheck(t, key, presented, failing) ==
              Effect(Reply(Authorized, None), Update(t, TokenIs(Enc(key, presented)), AddOne))
  {
  }

  /** An exhausted (or negative) quota on the first match is refused and nothing changes. */
  lemma RefusalKeepsTable(t: Table, key: Key, presented: string, failing: set<Stmt>)
    requires SelectByToken !in failing
    requires First(t, TokenIs(Enc(key, presented))).Some?
    requires !Admits(t[First(t, TokenIs(Enc(key, presented))).value])
    ensures QuotaCheck(t, key, presented, failing) == Effect(Reply(LimitExceeded, None), t)
  {
  }

  /** An unlimited first match is admitted and nothing changes. */
  lemma UnlimitedKeepsTable(t: Table, key: Key, presented: string, failing: set<Stmt>)
    requires SelectByToken !in failing
    requires First(t, TokenIs(Enc(key, presented))).Some?
    requires t[First(t, TokenIs(Enc(key, presented))).value].quota == 0
    ensures QuotaCheck(t, key, presented, failing) == Effect(Reply(Authorized, None), t)
  {
  }

  /** `strings.Replace(s, "-", "", -1)`. */
  function StripHyphens(s: string): (r: string)
    ensures '-' !in r
    ensures |r| <= |s|
    ensures forall ch :: ch in r <==> ch in s && ch != '-'
    decreases |s|
  {
    if |s| == 0 then ""
    else (if s[0] == '-' then "" else [s[0]]) + StripHyphens(s[1..])
  }

  /** The token is the UUID string with its hyphens removed; the UUID is an input. */
  function GenerateToken(uuid: string): (token: string)
    ensures '-' !in token
    ensures forall ch :: ch != '-' ==> (ch in token <==> ch in uuid)
  {
    StripHyphens(uuid)
  }

  /** A string without hyphens is its own stripped form. */
  lemma {:induction false} StripNothing(s: string)
    requires '-' !in s
    ensures StripHyphens(s) == s
    decreases |s|
  {
    if |s| > 0 {
      assert s[1..] + [] == s[1..];
      assert forall ch :: ch in s[1..] ==> ch in s;
      StripNothing(s[1..]);
      assert [s[0]] + s[1..] == s;
    }
  }

  /** Removing hyphens again is a no-op. */
  lemma StripIdempotent(s: string)
    ensures StripHyphens(StripHyphens(s)) == StripHyphens(s)
  {
    StripNothing(StripHyphens(s));
  }

  /** Stripping distributes over concatenation: the kept characters keep their order. */
  lemma {:induction false} StripAppend(a: string, b: string)
    ensures StripHyphens(a + b) == StripHyphens(a) + StripHyphens(b)
    decreases |a|
  {
    if |a| == 0 {
      assert a + b == b;
    } else {
      var head := if a[0] == '-' then "" else [a[0]];
      assert (a + b)[0] == a[0];
      assert (a + b)[1..] == a[1..] + b;
      calc {
        StripHyphens(a + b);
        head + StripHyphens(a[1..] + b);
        { StripAppend(a[1..], b); }
        head + (StripHyphens(a[1..]) + StripHyphens(b));
        (head + StripHyphens(a[1..])) + StripHyphens(b);
        StripHyphens(a) + StripHyphens(b);
      }
    }
  }

  predicate IsLowerHex(ch: char)
  {
    '0' <= ch <= '9' || 'a' <= ch <= 'f'
  }

  /** The text form `uuid.New().String()` produces: 8-4-4-4-12 lower-case hex digits. */
  predicate CanonicalUuid(s: string)
  {
    && |s| == 36
    && (forall i :: 0 <= i < 36 ==> if HyphenAt(i) then s[i] == '-' else IsLowerHex(s[i]))
  }

  predicate HyphenAt(i: int)
  {
    i == 8 || i == 13 || i == 18 || i == 23
  }

  predicate AllHex(s: string)
  {
    forall i :: 0 <= i < |s| ==> IsLowerHex(s[i])
  }

  /** The characters of `s[lo..hi]` are hex digits. */
  lemma HexGroup(s: string, lo: int, hi: int)
    requires CanonicalUuid(s) && 0 <= lo <= hi <= 36
    requires forall i :: lo <= i < hi ==> !HyphenAt(i)
    ensures '-' !in s[lo..hi]
    ensures AllHex(s[lo..hi])
  {
    forall j | 0 <= j < hi - lo
      ensures IsLowerHex(s[lo..hi][j])
    {
      assert s[lo..hi][j] == s[lo + j];
      assert !HyphenAt(lo + j);
    }
  }

  lemma HexAppend(a: string, b: string)
    requires AllHex(a) && AllHex(b)
    ensures AllHex(a + b)
  {
    forall i | 0 <= i < |a + b|
      ensures IsLowerHex((a + b)[i])
    {
      if i >= |a| {
        assert (a + b)[i] == b[i - |a|];
      }
    }
  }

  /** Stripping a hyphen-free prefix ended by a hyphen keeps the prefix and drops the hyphen. */
  lemma StripGroup(s: string, k: nat)
    requires k < |s| && s[k] == '-' && '-' !in s[..k]
    ensures StripHyphens(s) == s[..k] + StripHyphens(s[k + 1..])
  {
    var prefix, tail := s[..k], s[k..];
    assert s == prefix + tail;
    assert tail[0] == '-' && tail[1..] == s[k + 1..];
    calc {
      StripHyphens(s);
      StripHyphens(prefix + tail);
      { StripAppend(prefix, tail); }
      StripHyphens(prefix) + StripHyphens(tail);
      { StripNothing(prefix); }
      prefix + StripHyphens(tail);
      prefix + StripHyphens(s[k + 1..]);
    }
  }

  /** One inner group of a canonical UUID: its four digits survive and the hyphen after it goes. */
  lemma StripInnerGroup(uuid: string, lo: nat)
    requires CanonicalUuid(uuid)
    requires lo == 9 || lo == 14 || lo == 19
    ensures StripHyphens(uuid[lo..]) == uuid[lo..lo + 4] + StripHyphens(uuid[lo + 5..])
  {
    HexGroup(uuid, lo, lo + 4);
    assert HyphenAt(lo + 4);
    var s := uuid[lo..];
    assert s[..4] == uuid[lo..lo + 4];
    assert s[5..] == uuid[lo + 5..];
    StripGroup(s, 4);
  }

  /** A generated token is the five hex groups of the UUID joined: 32 hex digits. */
  lemma GeneratedTokenShape(uuid: string)
    requires CanonicalUuid(uuid)
    ensures GenerateToken(uuid) == uuid[..8] + uuid[9..13] + uuid[14..18] + uuid[19..23] + uuid[24..]
    ensures |GenerateToken(uuid)| == 32
    ensures forall i :: 0 <= i < 32 ==> IsLowerHex(GenerateToken(uuid)[i])
  {
    var g0, g1, g2, g3, g4 := uuid[..8], uuid[9..13], uuid[14..18], uuid[19..23], uuid[24..];
    assert StripHyphens(uuid) == g0 + StripHyphens(uuid[9..]) by {
      HexGroup(uuid, 0, 8);
      assert HyphenAt(8) && uuid[..8] == uuid[0..8];
      StripGroup(uuid, 8);
    }
    StripInnerGroup(uuid, 9);
    StripInnerGroup(uuid, 14);
    StripInnerGroup(uuid, 19);
    assert StripHyphens(g4) == g4 && AllHex(g4) by {
      HexGroup(uuid, 24, 36);
      assert uuid[24..] == uuid[24..36];
      StripNothing(g4);
    }
    assert StripHyphens(uuid) == g0 + (g1 + (g2 + (g3 + g4))) by {
      assert uuid[24..] == g4;
    }
    assert g0 + (g1 + (g2 + (g3 + g4))) == g0 + g1 + g2 + g3 + g4 by {
      AppendAssoc(g0, g1, g2 + (g3 + g4));
      AppendAssoc(g0 + g1, g2, g3 + g4);
      AppendAssoc(g0 + g1 + g2, g3, g4);
    }
    assert AllHex(g0 + g1 + g2 + g3 + g4) by {
      HexGroup(uuid, 0, 8);
      HexGroup(uuid, 9, 13);
      HexGroup(uuid, 14, 18);
      HexGroup(uuid, 19, 23);
      assert uuid[..8] == uuid[0..8];
      HexAppend(g0, g1);
      HexAppend(g0 + g1, g2);
      HexAppend(g0 + g1 + g2, g3);
      HexAppend(g0 + g1 + g2 + g3, g4);
    }
  }

  /**
   Create a credential for `accountId`: refuse when any row already has that
   account, otherwise insert one row with the encrypted token and usage 0 and
   hand back the plaintext token. `uuid` stands for `uuid.New().String()`.
   */
  function CreateToken(t: Table, key: Key, accountId: string, quota: int, uuid: string, failing: set<Stmt>)
    : (r: Effect<Reply<User>>)
    requires key != ""
    // Duplicate account: refused, nothing changes.
    ensures CountByAccount !in failing && Count(t, AccountIs(accountId)) > 0 ==>
              r == Effect(Reply(NoUser, Some(AccountExists(accountId))), t)
    // Success is exactly one appended row, and the plaintext token is returned once.
    ensures r.result.err.None? <==>
              CountByAccount !in failing && InsertRow !in failing && Count(t, AccountIs(accountId)) == 0
    ensures r.result.err.None? ==>
              && r.table == t + [Row(accountId, Enc(key, GenerateToken(uuid)), quota, 0)]
              && r.result.value == User(accountId, GenerateToken(uuid), quota)
              && Enc(key, r.result.value.token) == r.table[|t|].token
              && Count(r.table, AccountIs(accountId)) == 1
    // Every error returns the zero User and leaves the table unchanged.
    ensures r.result.err.Some? ==> r.table == t && r.result.value == NoUser
  {
    var token := GenerateToken(uuid);
    if CountByAccount in failing then
      Effect(Reply(NoUser, Some(StoreFailure(CountByAccount))), t)
    else if Count(t, AccountIs(accountId)) > 0 then
      Effect(Reply(NoUser, Some(AccountExists(accountId))), t)
    else if InsertRow in failing then
      Effect(Reply(NoUser, Some(StoreFailure(InsertRow))), t)
    else
      var row := Row(accountId, Enc(key, token), quota, 0);
      CountAppend(t, row, AccountIs(accountId));
      Effect(Reply(User(accountId, token, quota), None), t + [row])
  }

  /** Inserting a row adds one to a count exactly when the row matches. */
  lemma CountAppend(t: Table, row: Row, w: Where)
    ensures Count(t + [row], w) == Count(t, w) + (if Matches(row, w) then 1 else 0)
  {
    assert (t + [row])[..|t|] == t;
  }

  /** Remove every row of the account; deleting nothing is still a success. */
  function DeleteToken(t: Table, accountId: string, failing: set<Stmt>): (r: Effect<Option<Error>>)
    ensures DeleteByAccount in failing ==> r == Effect(Some(StoreFailure(DeleteByAccount)), t)
    ensures DeleteByAccount !in failing ==> r.result == None
    ensures DeleteByAccount !in failing ==>
              && Count(r.table, AccountIs(accountId)) == 0
              && |r.table| == |t| - Count(t, AccountIs(accountId))
              && (forall row :: row in r.table <==> row in t && row.accountId != accountId)
              && (Count(t, AccountIs(accountId)) == 0 ==> r.table == t)
    // The survivors are the rows of other accounts, in their order: the store's DELETE.
    ensures DeleteByAccount !in failing ==> r.table == Delete(t, AccountIs(accountId))
  {
    if DeleteByAccount in failing then
      Effect(Some(StoreFailure(DeleteByAccount)), t)
    else
      var d := Delete(t, AccountIs(accountId));
      DeleteMembers(t, AccountIs(accountId));
      assert Count(d, AccountIs(accountId)) == 0 by {
        forall j | 0 <= j < |d|
          ensures !Matches(d[j], AccountIs(accountId))
        {
          assert d[j] in d;
        }
      }
      assert Count(t, AccountIs(accountId)) == 0 ==> d == t by {
        if Count(t, AccountIs(accountId)) == 0 {
          DeleteNothing(t, AccountIs(accountId));
        }
      }
      Effect(None, d)
  }

  /** Every stored token decrypts under `key`: the table was written by a process holding that key. */
  predicate SealedUnder(t: Table, key: Key)
  {
    forall i :: 0 <= i < |t| ==> Dec(key, t[i].token).Some?
  }

  /** The row `GetToken` reads decrypts under the key (otherwise the Scan fails and the process exits). */
  predicate Readable(t: Table, key: Key, accountId: string)
  {
    First(t, AccountIs(accountId)).Some? ==>
      Dec(key, t[First(t, AccountIs(accountId)).value].token).Some?
  }

  /** The first credential of the account, decrypted; the zero Token when there is none. */
  function GetToken(t: Table, key: Key, accountId: string): (r: Token)
    requires Readable(t, key, accountId)
    ensures Count(t, AccountIs(accountId)) == 0 <==> First(t, AccountIs(accountId)).None?
    ensures First(t, AccountIs(accountId)).None? ==> r == NoToken
    ensures First(t, AccountIs(accountId)).Some? ==>
              var row := t[First(t, AccountIs(accountId)).value];
              && r.accountId == accountId
              && Enc(key, r.token) == row.token
              && r.quota == row.quota
              && r.quotaUsage == row.quotaUsage
  {
    match First(t, AccountIs(accountId))
    case None => NoToken
    case Some(i) =>
      Token(accountId, Dec(key, t[i].token).value, t[i].quota, t[i].quotaUsage)
  }

  /** One scanned row, with COALESCE(AES_DECRYPT(token, key), '') for the token. */
  function Present(key: Key, row: Row): (tok: Token)
    ensures tok.accountId == row.accountId && tok.quota == row.quota && tok.quotaUsage == row.quotaUsage
    ensures Dec(key, row.token).Some? ==> Enc(key, tok.token) == row.token
    ensures Dec(key, row.token).None? ==> tok.token == ""
  {
    var plain := match Dec(key, row.token) case Some(p) => p case None => "";
    Token(row.accountId, plain, row.quota, row.quotaUsage)
  }

  /** The `rows.Next()` loop: one Token per row, in table order. */
  method ScanRows(t: Table, key: Key) returns (tokens: seq<Token>)
    ensures |tokens| == |t|
    ensures forall i :: 0 <= i < |t| ==> tokens[i] == Present(key, t[i])
  {
    tokens := [];
    var i := 0;
    while i < |t|
      invariant 0 <= i <= |t|
      invariant |tokens| == i
      invariant forall j :: 0 <= j < i ==> tokens[j] == Present(key, t[j])
    {
      tokens := tokens + [Present(key, t[i])];
      i := i + 1;
    }
  }
}

=== FILE: invariants.dfy ===
/**
 A well-kept token table: the schema has no uniqueness constraint on account_id or token, so one row
 per account is kept by CreateToken's count check, one row per token by the
 randomness of the UUID, and the usage bound by the quota check. Every
 operation preserves this.
 */
module Invariants {
  import opened Wrappers
  import opened Crypto
  import opened Store
  import opened Gateway
  import opened Sessions

  predicate UniqueAccounts(t: Table)
  {
    forall i, j :: 0 <= i < j < |t| ==> t[i].accountId != t[j].accountId
  }

  predicate UniqueTokens(t: Table)
  {
    forall i, j :: 0 <= i < j < |t| ==> t[i].token != t[j].token
  }

  /** Usage is never negative, stays within a positive quota, and is zero for any other quota. */
  predicate WithinQuota(row: Row)
  {
    0 <= row.quotaUsage && (if row.quota > 0 then row.quotaUsage <= row.quota else row.quotaUsage == 0)
  }

  predicate Consistent(t: Table, key: Key)
  {
    && UniqueAccounts(t)
    && UniqueTokens(t)
    && SealedUnder(t, key)
    && (forall i :: 0 <= i < |t| ==> WithinQuota(t[i]))
  }

  /** In a consistent table every account reads back, and reads back within its quota. */
  lemma ConsistentReads(t: Table, key: Key, accountId: string)
    requires Consistent(t, key)
    ensures Readable(t, key, accountId)
    ensures var tok := GetToken(t, key, accountId);
            0 <= tok.quotaUsage && (tok.quota > 0 ==> tok.quotaUsage <= tok.quota)
  {
  }

  /** A usage-only rewrite keeps every invariant but the usage bound. */
  lemma UsageOnlyKeepsKeys(t: Table, r: Table, key: Key)
    requires Consistent(t, key) && UsageOnly(t, r)
    ensures UniqueAccounts(r) && UniqueTokens(r) && SealedUnder(r, key)
  {
    assert forall i :: 0 <= i < |t| ==> r[i].accountId == t[i].accountId && r[i].token == t[i].token;
  }

  /** Under unique tokens the only row with a ciphertext is the first one. */
  lemma OnlyFirstMatches(t: Table, c: Ciphertext, k: nat)
    requires UniqueTokens(t)
    requires k < |t| && t[k].token == c
    ensures First(t, TokenIs(c)) == Some(k)
  {
  }

  lemma QuotaCheckPreserves(t: Table, key: Key, presented: string, failing: set<Stmt>)
    requires Consistent(t, key)
    ensures Consistent(QuotaCheck(t, key, presented, failing).table, key)
  {
    var c := Enc(key, presented);
    var r := QuotaCheck(t, key, presented, failing).table;
    UsageOnlyKeepsKeys(t, r, key);
    if r != t {
      forall k | 0 <= k < |t| && t[k].token == c
        ensures WithinQuota(r[k])
      {
        OnlyFirstMatches(t, c, k);
      }
    }
  }

  /** The day-1 reset sets usage to zero, which is within every quota. */
  lemma ResetPreserves(t: Table, key: Key, presented: string)
    requires Consistent(t, key)
    ensures Consistent(Update(t, TokenIs(Enc(key, presented)), ResetToZero), key)
  {
    UsageOnlyKeepsKeys(t, Update(t, TokenIs(Enc(key, presented)), ResetToZero), key);
  }

  /** Validation by either build, on any day and whatever fails, keeps the table consistent. */
  lemma ValidatePreserves(b: Build, t: Table, key: Key, presented: string, failing: set<Stmt>)
    requires Consistent(t, key)
    ensures Consistent(Validate(b, t, key, presented, failing).table, key)
  {
    if b.Package? && b.day == 1 && ResetUsage !in failing {
      var reset := Update(t, TokenIs(Enc(key, presented)), ResetToZero);
      ResetPreserves(t, key, presented);
      QuotaCheckPreserves(reset, key, presented, failing);
      assert Validate(b, t, key, presented, failing) == QuotaCheck(reset, key, presented, failing);
    } else if b.Package? && b.day == 1 {
      assert Validate(b, t, key, presented, failing).table == t;
    } else {
      QuotaCheckPreserves(t, key, presented, failing);
      assert Validate(b, t, key, presented, failing) == QuotaCheck(t, key, presented, failing);
    }
  }

  /** Deleting rows keeps the survivors' keys distinct. */
  lemma {:induction false} DeleteKeepsUnique(t: Table, w: Where)
    requires UniqueAccounts(t) && UniqueTokens(t)
    ensures UniqueAccounts(Delete(t, w)) && UniqueTokens(Delete(t, w))
    decreases |t|
  {
    if |t| > 0 {
      var init, last := t[..|t| - 1], t[|t| - 1];
      assert UniqueAccounts(init) && UniqueTokens(init) by {
        forall i, j | 0 <= i < j < |init|
          ensures init[i].accountId != init[j].accountId && init[i].token != init[j].token
        {
          assert init[i] == t[i] && init[j] == t[j];
        }
      }
      DeleteKeepsUnique(init, w);
      if !Matches(last, w) {
        var rest := Delete(init, w);
        assert forall j :: 0 <= j < |rest| ==> rest[j].accountId != last.accountId && rest[j].token != last.token by {
          DeleteMembers(init, w);
          forall j | 0 <= j < |rest|
            ensures rest[j].accountId != last.accountId && rest[j].token != last.token
          {
            assert rest[j] in init;
            var k :| 0 <= k < |init| && init[k] == rest[j];
            assert t[k] == rest[j];
          }
        }
        SnocUnique(rest, last);
      }
    }
  }

  /** A row whose keys differ from every row of a table with distinct keys can be appended. */
  lemma SnocUnique(t: Table, row: Row)
    requires UniqueAccounts(t) && UniqueTokens(t)
    requires forall j :: 0 <= j < |t| ==> t[j].accountId != row.accountId && t[j].token != row.token
    ensures UniqueAccounts(t + [row]) && UniqueTokens(t + [row])
  {
    assert forall j :: 0 <= j < |t| ==> (t + [row])[j] == t[j];
  }

  lemma DeletePreserves(t: Table, key: Key, accountId: string, failing: set<Stmt>)
    requires Consistent(t, key)
    ensures Consistent(DeleteToken(t, accountId, failing).table, key)
  {
    var r := DeleteToken(t, accountId, failing).table;
    if DeleteByAccount !in failing {
      DeleteKeepsUnique(t, AccountIs(accountId));
      DeleteMembers(t, AccountIs(accountId));
      assert r == Delete(t, AccountIs(accountId));
      forall i | 0 <= i < |r|
        ensures Dec(key, r[i].token).Some? && WithinQuota(r[i])
      {
        assert r[i] in t;
      }
    }
  }

  /**
   A successful create appends a row for an account that had none, with a
   fresh token and usage 0, so the table stays consistent; a failed create
   changes nothing.
   */
  lemma CreatePreserves(t: Table, key: Key, accountId: string, quota: int, uuid: string, failing: set<Stmt>)
    requires key != ""
    requires Consistent(t, key)
    requires Count(t, TokenIs(Enc(key, GenerateToken(uuid)))) == 0
    ensures Consistent(CreateToken(t, key, accountId, quota, uuid, failing).table, key)
  {
    var created := CreateToken(t, key, accountId, quota, uuid, failing);
    if created.result.err.None? {
      var row := Row(accountId, Enc(key, GenerateToken(uuid)), quota, 0);
      var r := t + [row];
      assert created.table == r;
      assert forall i :: 0 <= i < |t| ==> !Matches(t[i], AccountIs(accountId));
      assert forall i :: 0 <= i < |t| ==> !Matches(t[i], TokenIs(row.token));
      SnocUnique(t, row);
      assert forall i :: 0 <= i < |t| ==> r[i] == t[i];
      assert r[|t|] == row;
    }
  }
}

=== FILE: legacy_main.dfy ===
/**
 The legacy single-file build (main.go). Its `validateToken` is
 `Gateway.QuotaCheck` with no date dependence, and its `deleteToken`,
 `getToken`, `generateToken` and `createToken` are the Gateway functions.
 What differs is `getTokens`: it has no COALESCE and no error result, so an
 undecryptable token or a failed query ends the process.
 */
module LegacyMain {
  import opened Crypto
  import opened Model
  import opened Store
  import opened Gateway

  /** All credentials in table order, each with its plaintext token. */
  method GetTokens(t: Table, key: Key) returns (tokens: seq<Token>)
    requires SealedUnder(t, key)
    ensures |tokens| == |t|
    ensures forall i :: 0 <= i < |t| ==>
              && tokens[i].accountId == t[i].accountId
              && Enc(key, tokens[i].token) == t[i].token
              && tokens[i].quota == t[i].quota
              && tokens[i].quotaUsage == t[i].quotaUsage
  {
    tokens := ScanRows(t, key);
  }
}

=== FILE: lifecycle.dfy ===
/**
 Create, read and delete as a caller sees them in sequence: a created token
 validates, a second create for the same account is refused, a deleted
 account reads back as the zero Token.
 */
module Lifecycle {
  import opened Wrappers
  import opened Crypto
  import opened Model
  import opened Store
  import opened Gateway
  import opened Sessions
  import TokenDb

  /** Appending a row that is the only match makes it the first match. */
  lemma FirstOfAppended(t: Table, row: Row, w: Where)
    requires Count(t, w) == 0 && Matches(row, w)
    ensures First(t + [row], w) == Some(|t|)
  {
    var t2 := t + [row];
    assert t2[|t|] == row;
    assert forall i :: 0 <= i < |t| ==> t2[i] == t[i];
  }

  /**
   A fresh row (usage 0, the only one with its ciphertext) as either build
   validates it on any day: admitted unless its quota is negative, and then
   counted once if its quota is limited.
   */
  lemma FreshRowValidates(b: Build, t: Table, key: Key, presented: string, k: nat)
    requires First(t, TokenIs(Enc(key, presented))) == Some(k)
    requires t[k].quotaUsage == 0
    ensures var v := Validate(b, t, key, presented, {});
            && v.result == Reply(if t[k].quota >= 0 then Authorized else LimitExceeded, None)
            && UsageOnly(t, v.table)
            && v.table[k].quotaUsage == (if t[k].quota > 0 then 1 else 0)
  {
    var c := Enc(key, presented);
    var v := Validate(b, t, key, presented, {});
    if b.Package? && b.day == 1 {
      if t[k].quota > 0 {
        TokenDb.DayOneAdmits(t, key, presented);
      } else if t[k].quota == 0 {
        TokenDb.UnlimitedNotCounted(t, key, presented, 1, {});
      } else {
        TokenDb.NegativeQuotaRefused(t, key, presented, 1, {});
      }
    } else {
      assert v == QuotaCheck(t, key, presented, {});
      if t[k].quota == 0 {
        UnlimitedKeepsTable(t, key, presented, {});
      } else if t[k].quota > 0 {
        AdmissionCounts(t, key, presented, {});
      } else {
        RefusalKeepsTable(t, key, presented, {});
      }
    }
  }

  /**
   Round trip: a token created for a new account, presented back to either
   build on any day, is admitted (refused only for a negative quota), and the
   account then reads back with its plaintext token and a usage of 1 for a
   limited quota. The generated token must not already be stored, which the
   random UUID stands for.
   */
  lemma CreateThenValidate(b: Build, t: Table, key: Key, accountId: string, quota: int, uuid: string)
    requires key != ""
    requires Count(t, AccountIs(accountId)) == 0
    requires Count(t, TokenIs(Enc(key, GenerateToken(uuid)))) == 0
    ensures var created := CreateToken(t, key, accountId, quota, uuid, {});
            var v := Validate(b, created.table, key, created.result.value.token, {});
            && created.result.err == None
            && v.result == Reply(if quota >= 0 then Authorized else LimitExceeded, None)
            && Readable(v.table, key, accountId)
            && GetToken(v.table, key, accountId) ==
                 Token(accountId, GenerateToken(uuid), quota, if quota > 0 then 1 else 0)
  {
    var token := GenerateToken(uuid);
    var row := Row(accountId, Enc(key, token), quota, 0);
    var created := CreateToken(t, key, accountId, quota, uuid, {});
    var t2 := t + [row];
    assert created.table == t2 && created.result.value.token == token;
    FirstOfAppended(t, row, TokenIs(Enc(key, token)));
    FirstOfAppended(t, row, AccountIs(accountId));
    var v := Validate(b, t2, key, token, {});
    FreshRowValidates(b, t2, key, token, |t|);
    UsageOnlyKeepsWhere(t2, v.table, AccountIs(accountId));
    assert v.table[|t|].token == Enc(key, token);
    var got := GetToken(v.table, key, accountId);
    assert Enc(key, got.token) == Enc(key, token);
    EncInjective(key, got.token, token);
  }

  /** Two creates for one account: the second is refused and the account keeps exactly one row. */
  lemma CreateTwice(t: Table, key: Key, accountId: string, q1: int, q2: int, uuid1: string, uuid2: string)
    requires key != ""
    requires Count(t, AccountIs(accountId)) == 0
    ensures var first := CreateToken(t, key, accountId, q1, uuid1, {});
            var second := CreateToken(first.table, key, accountId, q2, uuid2, {});
            && first.result.err == None
            && second.result.err == Some(AccountExists(accountId))
            && second.table == first.table
            && Count(second.table, AccountIs(accountId)) == 1
  {
  }

  /** After a delete the account reads back as the zero Token. */
  lemma DeleteThenGet(t: Table, key: Key, accountId: string)
    ensures var d := DeleteToken(t, accountId, {});
            Readable(d.table, key, accountId) && GetToken(d.table, key, accountId) == NoToken
  {
  }

  /** Deleting an account twice is deleting it once, and the second call still succeeds. */
  lemma DeleteIdempotent(t: Table, accountId: string)
    ensures var once := DeleteToken(t, accountId, {});
            DeleteToken(once.table, accountId, {}) == once
  {
    DeleteTwice(t, AccountIs(accountId));
  }
}

=== FILE: model.dfy ===
/**
 The records the gateway hands to its callers (model/model.go, repeated
 in main.go for the legacy build).
 */
module Model {

  /** What `CreateToken` returns: the plaintext token is shown only here. */
  datatype User = User(accountId: string, token: string, quota: int)

  /** One credential as reported by `GetToken` and `GetTokens`. */
  datatype Token = Token(accountId: string, token: string, quota: int, quotaUsage: int)

  /** Go's zero value `User{}`, returned on every error path of `CreateToken`. */
  const NoUser := User("", "", 0)

  /** Go's zero value `Token{}`, returned by `GetToken` when nothing matches. */
  const NoToken := Token("", "", 0, 0)
}

=== FILE: sessions.dfy ===
/**
 Sequences of calls against one table, as the gateway serves them one after
 another: repeated validation of one token, without and with the day-1
 reset.
 */
module Sessions {
  import opened Wrappers
  import opened Crypto
  import opened Store
  import opened Gateway
  import TokenDb

  /** Which build serves the request: the legacy binary, or the package on a given day. */
  datatype Build = Legacy | Package(day: TokenDb.Day)

  /** One validation request served by build `b`. */
  function Validate(b: Build, t: Table, key: Key, presented: string, failing: set<Stmt>): (r: Effect<Reply<Verdict>>)
    ensures UsageOnly(t, r.table)
  {
    match b
    case Legacy => QuotaCheck(t, key, presented, failing)
    case Package(day) => TokenDb.ValidateToken(t, key, presented, day, failing)
  }

  /** `n` validations of the same token against a healthy store; the replies in call order. */
  function Repeat(b: Build, t: Table, key: Key, presented: string, n: nat): (r: Effect<seq<Reply<Verdict>>>)
    ensures |r.result| == n
    ensures |r.table| == |t|
    decreases n
  {
    if n == 0 then Effect([], t)
    else
      var first := Validate(b, t, key, presented, {});
      var rest := Repeat(b, first.table, key, presented, n - 1);
      Effect([first.result] + rest.result, rest.table)
  }

  /** However many validations run, by either build, only the usage column is ever written. */
  lemma {:induction false} RepeatUsageOnly(b: Build, t: Table, key: Key, presented: string, n: nat)
    ensures UsageOnly(t, Repeat(b, t, key, presented, n).table)
    decreases n
  {
    if n > 0 {
      var v := Validate(b, t, key, presented, {});
      var r := Repeat(b, t, key, presented, n).table;
      assert r == Repeat(b, v.table, key, presented, n - 1).table by {
        RepeatUnfold(b, t, key, presented, n);
      }
      RepeatUsageOnly(b, v.table, key, presented, n - 1);
      UsageOnlyTrans(t, v.table, r);
    }
  }

  lemma UsageOnlyTrans(a: Table, b: Table, c: Table)
    requires UsageOnly(a, b) && UsageOnly(b, c)
    ensures UsageOnly(a, c)
  {
  }

  function Min(a: int, b: int): (m: int)
  {
    if a <= b then a else b
  }

  /** Counting one call and then n - 1 more against a cap is counting n against it. */
  lemma MinStep(u: int, q: int, n: int)
    requires u <= q && n > 0
    ensures Min(Min(u + 1, q) + (n - 1), q) == Min(u + n, q)
    ensures q - Min(u + 1, q) == if q - u > 0 then q - u - 1 else 0
  {
  }

  /**
   One healthy validation without the day-1 reset, for a token whose first row
   has a positive quota. This is `Gateway.AdmissionCounts` and
   `Gateway.RefusalKeepsTable` restated as one equation over `Validate`, the
   form the inductions over `Repeat` unfold step by step.
   */
  lemma LimitedStep(b: Build, t: Table, key: Key, presented: string)
    requires b.Legacy? || b.day != 1
    requires First(t, TokenIs(Enc(key, presented))).Some?
    requires t[First(t, TokenIs(Enc(key, presented))).value].quota > 0
    ensures var i := First(t, TokenIs(Enc(key, presented))).value;
            Validate(b, t, key, presented, {}) ==
              if t[i].quotaUsage < t[i].quota
              then Effect(Reply(Authorized, None), Update(t, TokenIs(Enc(key, presented)), AddOne))
              else Effect(Reply(LimitExceeded, None), t)
  {
    var i := First(t, TokenIs(Enc(key, presented))).value;
    assert Validate(b, t, key, presented, {}) == QuotaCheck(t, key, presented, {});
    if t[i].quotaUsage < t[i].quota {
      AdmissionCounts(t, key, presented, {});
    } else {
      RefusalKeepsTable(t, key, presented, {});
    }
  }

  /** One legacy call on a limited token whose usage is within its quota: the verdict, and where its row stands after. */
  lemma LegacyAdvance(t: Table, key: Key, presented: string)
    requires First(t, TokenIs(Enc(key, presented))).Some?
    requires var row := t[First(t, TokenIs(Enc(key, presented))).value];
             0 < row.quota && 0 <= row.quotaUsage <= row.quota
    ensures var v := Validate(Legacy, t, key, presented, {});
            var i := First(t, TokenIs(Enc(key, presented))).value;
            && v.result == Reply(if t[i].quotaUsage < t[i].quota then Authorized else LimitExceeded, None)
            && First(v.table, TokenIs(Enc(key, presented))) == Some(i)
            && v.table[i].quota == t[i].quota
            && v.table[i].quotaUsage == Min(t[i].quotaUsage + 1, t[i].quota)
  {
    var c := Enc(key, presented);
    var i := First(t, TokenIs(c)).value;
    var v := Validate(Legacy, t, key, presented, {});
    LimitedStep(Legacy, t, key, presented);
    if t[i].quotaUsage < t[i].quota {
      var after := Update(t, TokenIs(c), AddOne);
      assert v.table == after;
      UpdateKeepsFirst(t, TokenIs(c), AddOne, TokenIs(c));
      assert v.table[i].quotaUsage == Min(t[i].quotaUsage + 1, t[i].quota);
    } else {
      assert v.table == t;
      assert v.table[i].quotaUsage == Min(t[i].quotaUsage + 1, t[i].quota);
    }
  }

  /** A validation by either build writes only rows carrying the presented token's ciphertext. */
  lemma OthersUntouched(b: Build, t: Table, key: Key, presented: string, failing: set<Stmt>)
    ensures var v := Validate(b, t, key, presented, failing);
            forall k :: 0 <= k < |t| && t[k].token != Enc(key, presented) ==> v.table[k] == t[k]
  {
    if b.Legacy? {
      var r := QuotaCheck(t, key, presented, failing);
      assert Validate(b, t, key, presented, failing) == r;
      if r.table != t {
        assert forall k :: 0 <= k < |t| && t[k].token != Enc(key, presented) ==> r.table[k] == t[k];
      }
    }
  }

  /**
   Without the day-1 reset, a token whose row has quota Q > 0 and usage u <= Q
   is admitted on the first Q - u calls and refused on every later one: reply
   `j` of `n` is an admission exactly when j < Q - u.
   */
  lemma {:induction false} QuotaSequence(t: Table, key: Key, presented: string, n: nat, j: nat)
    requires First(t, TokenIs(Enc(key, presented))).Some?
    requires var row := t[First(t, TokenIs(Enc(key, presented))).value];
             0 < row.quota && 0 <= row.quotaUsage <= row.quota
    requires j < n
    ensures var i := First(t, TokenIs(Enc(key, presented))).value;
            Repeat(Legacy, t, key, presented, n).result[j] ==
              Reply(if j < t[i].quota - t[i].quotaUsage then Authorized else LimitExceeded, None)
    decreases j
  {
    var i := First(t, TokenIs(Enc(key, presented))).value;
    var v := Validate(Legacy, t, key, presented, {});
    var rest := Repeat(Legacy, v.table, key, presented, n - 1);
    LegacyAdvance(t, key, presented);
    assert Repeat(Legacy, t, key, presented, n).result == [v.result] + rest.result by {
      RepeatUnfold(Legacy, t, key, presented, n);
    }
    if j > 0 {
      var left := t[i].quota - t[i].quotaUsage;
      var left' := v.table[i].quota - v.table[i].quotaUsage;
      assert left' == if left > 0 then left - 1 else 0 by {
        MinStep(t[i].quotaUsage, t[i].quota, 1);
      }
      QuotaSequence(v.table, key, presented, n - 1, j - 1);
    }
  }

  /** The accounting side of `QuotaSequence`: after n calls the token's usage is min(u + n, Q). */
  lemma {:induction false} QuotaUsage(t: Table, key: Key, presented: string, n: nat)
    requires First(t, TokenIs(Enc(key, presented))).Some?
    requires var row := t[First(t, TokenIs(Enc(key, presented))).value];
             0 < row.quota && 0 <= row.quotaUsage <= row.quota
    ensures var i := First(t, TokenIs(Enc(key, presented))).value;
            Repeat(Legacy, t, key, presented, n).table[i].quotaUsage == Min(t[i].quotaUsage + n, t[i].quota)
    decreases n
  {
    if n > 0 {
      var i := First(t, TokenIs(Enc(key, presented))).value;
      var v := Validate(Legacy, t, key, presented, {});
      var rest := Repeat(Legacy, v.table, key, presented, n - 1);
      LegacyAdvance(t, key, presented);
      assert Repeat(Legacy, t, key, presented, n).table == rest.table by {
        RepeatUnfold(Legacy, t, key, presented, n);
      }
      QuotaUsage(v.table, key, presented, n - 1);
      MinStep(t[i].quotaUsage, t[i].quota, n);
    }
  }

  /** Any run of validations of one token, by either build, leaves every other token's rows as they were. */
  lemma {:induction false} RepeatOthersUntouched(b: Build, t: Table, key: Key, presented: string, n: nat, k: nat)
    requires k < |t| && t[k].token != Enc(key, presented)
    ensures Repeat(b, t, key, presented, n).table[k] == t[k]
    decreases n
  {
    if n > 0 {
      var v := Validate(b, t, key, presented, {});
      OthersUntouched(b, t, key, presented, {});
      assert Repeat(b, t, key, presented, n).table == Repeat(b, v.table, key, presented, n - 1).table by {
        RepeatUnfold(b, t, key, presented, n);
      }
      RepeatOthersUntouched(b, v.table, key, presented, n - 1, k);
    }
  }

  /** A token with quota Q > 0 and usage 0 is admitted exactly Q times; call Q + 1 is refused and usage ends at Q. */
  lemma QuotaOfQ(t: Table, key: Key, presented: string)
    requires First(t, TokenIs(Enc(key, presented))).Some?
    requires var row := t[First(t, TokenIs(Enc(key, presented))).value];
             0 < row.quota && row.quotaUsage == 0
    ensures var i := First(t, TokenIs(Enc(key, presented))).value;
            var r := Repeat(Legacy, t, key, presented, t[i].quota + 1);
            && (forall j :: 0 <= j < t[i].quota ==> r.result[j] == Reply(Authorized, None))
            && r.result[t[i].quota] == Reply(LimitExceeded, None)
            && r.table[i].quotaUsage == t[i].quota
  {
    var i := First(t, TokenIs(Enc(key, presented))).value;
    var q := t[i].quota;
    var r := Repeat(Legacy, t, key, presented, q + 1);
    forall j | 0 <= j <= q
      ensures r.result[j] == Reply(if j < q then Authorized else LimitExceeded, None)
    {
      QuotaSequence(t, key, presented, q + 1, j);
    }
    assert r.table[i].quotaUsage == q by {
      QuotaUsage(t, key, presented, q + 1);
    }
  }

  /** An exhausted token stays refused, with the table untouched, on every call without the day-1 reset. */
  lemma {:induction false} ExhaustedStaysRefused(t: Table, key: Key, presented: string, n: nat)
    requires First(t, TokenIs(Enc(key, presented))).Some?
    requires var row := t[First(t, TokenIs(Enc(key, presented))).value];
             0 < row.quota <= row.quotaUsage
    ensures Repeat(Legacy, t, key, presented, n).table == t
    ensures forall j :: 0 <= j < n ==> Repeat(Legacy, t, key, presented, n).result[j] == Reply(LimitExceeded, None)
    decreases n
  {
    if n > 0 {
      var first := Validate(Legacy, t, key, presented, {});
      assert first == Effect(Reply(LimitExceeded, None), t) by {
        assert first == QuotaCheck(t, key, presented, {});
        RefusalKeepsTable(t, key, presented, {});
      }
      ExhaustedStaysRefused(t, key, presented, n - 1);
      RepeatUnfold(Legacy, t, key, presented, n);
      var r := Repeat(Legacy, t, key, presented, n);
      var rest := Repeat(Legacy, t, key, presented, n - 1);
      forall j | 0 <= j < n
        ensures r.result[j] == Reply(LimitExceeded, None)
      {
        if j > 0 {
          assert r.result[j] == rest.result[j - 1];
        }
      }
    }
  }

  /** An unlimited token is admitted on every call without the day-1 reset, and nothing is ever written. */
  lemma {:induction false} UnlimitedRun(b: Build, t: Table, key: Key, presented: string, n: nat)
    requires b.Legacy? || b.day != 1
    requires First(t, TokenIs(Enc(key, presented))).Some?
    requires t[First(t, TokenIs(Enc(key, presented))).value].quota == 0
    ensures Repeat(b, t, key, presented, n).table == t
    ensures forall j :: 0 <= j < n ==> Repeat(b, t, key, presented, n).result[j] == Reply(Authorized, None)
    decreases n
  {
    if n > 0 {
      var first := Validate(b, t, key, presented, {});
      assert first == Effect(Reply(Authorized, None), t) by {
        assert first == QuotaCheck(t, key, presented, {});
        UnlimitedKeepsTable(t, key, presented, {});
      }
      UnlimitedRun(b, t, key, presented, n - 1);
      RepeatUnfold(b, t, key, presented, n);
      var r := Repeat(b, t, key, presented, n);
      var rest := Repeat(b, t, key, presented, n - 1);
      forall j | 0 <= j < n
        ensures r.result[j] == Reply(Authorized, None)
      {
        if j > 0 {
          assert r.result[j] == rest.result[j - 1];
        }
      }
    }
  }

  /**
   On day 1 an unlimited token is admitted on every call too; the only write of
   the whole run is the reset of its usage, which later calls repeat to no effect.
   */
  lemma {:induction false} DayOneUnlimitedRun(t: Table, key: Key, presented: string, n: nat)
    requires First(t, TokenIs(Enc(key, presented))).Some?
    requires t[First(t, TokenIs(Enc(key, presented))).value].quota == 0
    ensures Repeat(Package(1), t, key, presented, n).table ==
              if n == 0 then t else Update(t, TokenIs(Enc(key, presented)), ResetToZero)
    ensures forall j :: 0 <= j < n ==> Repeat(Package(1), t, key, presented, n).result[j] == Reply(Authorized, None)
    decreases n
  {
    if n > 0 {
      var c := Enc(key, presented);
      var i := First(t, TokenIs(c)).value;
      var reset := Update(t, TokenIs(c), ResetToZero);
      assert First(reset, TokenIs(c)) == Some(i) && reset[i].quota == 0 by {
        UpdateKeepsFirst(t, TokenIs(c), ResetToZero, TokenIs(c));
      }
      var first := Validate(Package(1), t, key, presented, {});
      assert first == Effect(Reply(Authorized, None), reset) by {
        assert first == QuotaCheck(reset, key, presented, {});
        UnlimitedKeepsTable(reset, key, presented, {});
      }
      DayOneUnlimitedRun(reset, key, presented, n - 1);
      ResetTwice(t, TokenIs(c));
      RepeatUnfold(Package(1), t, key, presented, n);
      var r := Repeat(Package(1), t, key, presented, n);
      var rest := Repeat(Package(1), reset, key, presented, n - 1);
      forall j | 0 <= j < n
        ensures r.result[j] == Reply(Authorized, None)
      {
        if j > 0 {
          assert r.result[j] == rest.result[j - 1];
        }
      }
    }
  }

  /** Off day 1 the package build answers any run of calls exactly as the legacy build does. */
  lemma {:induction false} OffDayOneAgrees(day: TokenDb.Day, t: Table, key: Key, presented: string, n: nat)
    requires day != 1
    ensures Repeat(Package(day), t, key, presented, n) == Repeat(Legacy, t, key, presented, n)
    decreases n
  {
    if n > 0 {
      var v := Validate(Legacy, t, key, presented, {});
      var pack := Repeat(Package(day), v.table, key, presented, n - 1);
      var legacy := Repeat(Legacy, v.table, key, presented, n - 1);
      assert Repeat(Package(day), t, key, presented, n) == Effect([v.result] + pack.result, pack.table) by {
        SameStepOffDayOne(day, t, key, presented);
        RepeatUnfold(Package(day), t, key, presented, n);
      }
      assert Repeat(Legacy, t, key, presented, n) == Effect([v.result] + legacy.result, legacy.table) by {
        RepeatUnfold(Legacy, t, key, presented, n);
      }
      OffDayOneAgrees(day, v.table, key, presented, n - 1);
    }
  }

  /** One step of `Repeat`: the first reply, then the rest against the table it left. */
  lemma RepeatUnfold(b: Build, t: Table, key: Key, presented: string, n: nat)
    requires n > 0
    ensures var v := Validate(b, t, key, presented, {});
            var rest := Repeat(b, v.table, key, presented, n - 1);
            Repeat(b, t, key, presented, n) == Effect([v.result] + rest.result, rest.table)
  {
  }

  lemma SameStepOffDayOne(day: TokenDb.Day, t: Table, key: Key, presented: string)
    requires day != 1
    ensures Validate(Package(day), t, key, presented, {}) == Validate(Legacy, t, key, presented, {})
  {
  }

  /**
   One healthy day-1 validation of a known token with a positive quota.
   `TokenDb.DayOneAdmits` states this for `ValidateToken`; here it is restated
   over `Validate` together with what the next step of a `Repeat` needs: the
   same first match and the same quota.
   */
  lemma DayOneStep(t: Table, key: Key, presented: string)
    requires First(t, TokenIs(Enc(key, presented))).Some?
    requires t[First(t, TokenIs(Enc(key, presented))).value].quota > 0
    ensures var v := Validate(Package(1), t, key, presented, {});
            var i := First(t, TokenIs(Enc(key, presented))).value;
            && v.result == Reply(Authorized, None)
            && First(v.table, TokenIs(Enc(key, presented))) == Some(i)
            && v.table[i].quota == t[i].quota
            && forall k :: 0 <= k < |t| && t[k].token == Enc(key, presented) ==> v.table[k].quotaUsage == 1
  {
    var v := Validate(Package(1), t, key, presented, {});
    TokenDb.DayOneAdmits(t, key, presented);
    UsageOnlyKeepsWhere(t, v.table, TokenIs(Enc(key, presented)));
  }

  /**
   On day 1 the package build admits a known token with a positive quota on
   every call: the reset runs before each check, so the quota is not enforced
   that day.
   */
  lemma {:induction false} DayOneNeverRefuses(t: Table, key: Key, presented: string, n: nat, j: nat)
    requires First(t, TokenIs(Enc(key, presented))).Some?
    requires t[First(t, TokenIs(Enc(key, presented))).value].quota > 0
    requires j < n
    ensures Repeat(Package(1), t, key, presented, n).result[j] == Reply(Authorized, None)
    decreases j
  {
    var c := Enc(key, presented);
    var v := Validate(Package(1), t, key, presented, {});
    var rest := Repeat(Package(1), v.table, key, presented, n - 1);
    assert v.result == Reply(Authorized, None)
        && First(v.table, TokenIs(c)).Some?
        && v.table[First(v.table, TokenIs(c)).value].quota > 0 by {
      DayOneStep(t, key, presented);
    }
    assert Repeat(Package(1), t, key, presented, n).result == [v.result] + rest.result by {
      RepeatUnfold(Package(1), t, key, presented, n);
    }
    if j > 0 {
      DayOneNeverRefuses(v.table, key, presented, n - 1, j - 1);
      assert ([v.result] + rest.result)[j] == rest.result[j - 1];
    } else {
      assert ([v.result] + rest.result)[0] == v.result;
    }
  }

  /** After any positive number of day-1 calls, every row of the token reads usage 1. */
  lemma {:induction false} DayOneUsage(t: Table, key: Key, presented: string, n: nat)
    requires n > 0
    requires First(t, TokenIs(Enc(key, presented))).Some?
    requires t[First(t, TokenIs(Enc(key, presented))).value].quota > 0
    ensures forall k :: 0 <= k < |t| && t[k].token == Enc(key, presented) ==>
              Repeat(Package(1), t, key, presented, n).table[k].quotaUsage == 1
    decreases n
  {
    DayOneStep(t, key, presented);
    var t1 := Validate(Package(1), t, key, presented, {}).table;
    RepeatUnfold(Package(1), t, key, presented, n);
    if n > 1 {
      DayOneUsage(t1, key, presented, n - 1);
      forall k | 0 <= k < |t| && t[k].token == Enc(key, presented)
        ensures t1[k].token == Enc(key, presented)
      {
      }
    }
  }
}

=== FILE: store.dfy ===
/**
 The `token` table and the SQL statements the gateway runs against it.

 The table is a sequence of rows in insertion order. The schema has no
 uniqueness constraint on `account_id` or on `token`, so neither is assumed
 here. `QueryRow` yields the first row in table order that satisfies the
 WHERE clause.
 */
module Store {
  import opened Wrappers
  import opened Crypto

  /** One row of `token (account_id, token, quota, quota_usage)`. */
  datatype Row = Row(accountId: string, token: Ciphertext, quota: int, quotaUsage: int)

  type Table = seq<Row>

  /** The two WHERE clauses the gateway uses. */
  datatype Where =
    | TokenIs(cipher: Ciphertext)   // WHERE token = AES_ENCRYPT(?, ?)
    | AccountIs(account: string)    // WHERE account_id = ?

  predicate Matches(row: Row, w: Where)
  {
    match w
    case TokenIs(c) => row.token == c
    case AccountIs(a) => row.accountId == a
  }

  /** The two assignments made to `quota_usage`. */
  datatype UsageUpdate =
    | ResetToZero   // SET quota_usage = 0
    | AddOne        // SET quota_usage = quota_usage + 1

  function Assign(u: UsageUpdate, usage: int): (v: int)
  {
    match u
    case ResetToZero => 0
    case AddOne => usage + 1
  }

  /** The statements that can fail at the store; a failed statement changes nothing. */
  datatype Stmt =
    | ResetUsage       // day-1 reset in ValidateToken
    | SelectByToken    // lookup of the presented token
    | IncrementUsage   // usage accounting after an admission
    | DeleteByAccount
    | SelectAll
    | CountByAccount   // duplicate check in CreateToken
    | InsertRow

  /** The errors the gateway returns to its caller. */
  datatype Error =
    | StoreFailure(stmt: Stmt)
    | AccountExists(accountId: string)

  /** A Go `(value, error)` pair. */
  datatype Reply<+T> = Reply(value: T, err: Option<Error>)

  /** What a call returned, together with the table after it. */
  datatype Effect<+T> = Effect(result: T, table: Table)

  /** Index of the first row satisfying `w`: the row `QueryRow` scans. */
  function First(t: Table, w: Where): (r: Option<nat>)
    ensures r.Some? ==> r.value < |t| && Matches(t[r.value], w)
    ensures r.Some? ==> forall j :: 0 <= j < r.value ==> !Matches(t[j], w)
    ensures r.None? <==> forall j :: 0 <= j < |t| ==> !Matches(t[j], w)
  {
    FirstFrom(t, w, 0)
  }

  /** The scan from row `k` on. */
  function FirstFrom(t: Table, w: Where, k: nat): (r: Option<nat>)
    requires k <= |t|
    ensures r.Some? ==> k <= r.value < |t| && Matches(t[r.value], w)
    ensures r.Some? ==> forall j :: k <= j < r.value ==> !Matches(t[j], w)
    ensures r.None? <==> forall j :: k <= j < |t| ==> !Matches(t[j], w)
    decreases |t| - k
  {
    if k == |t| then None
    else if Matches(t[k], w) then Some(k)
    else FirstFrom(t, w, k + 1)
  }

  /** SELECT COUNT(*) ... WHERE w. */
  function Count(t: Table, w: Where): (n: nat)
    ensures n <= |t|
    ensures n == 0 <==> forall j :: 0 <= j < |t| ==> !Matches(t[j], w)
    ensures n == |t| <==> forall j :: 0 <= j < |t| ==> Matches(t[j], w)
    decreases |t|
  {
    if |t| == 0 then 0
    else
      var init := t[..|t| - 1];
      assert forall j :: 0 <= j < |init| ==> init[j] == t[j];
      Count(init, w) + (if Matches(t[|t| - 1], w) then 1 else 0)
  }

  /** DELETE FROM token WHERE w. */
  function Delete(t: Table, w: Where): (r: Table)
    ensures |r| == |t| - Count(t, w)
    decreases |t|
  {
    if |t| == 0 then []
    else
      var init, last := t[..|t| - 1], t[|t| - 1];
      Delete(init, w) + (if Matches(last, w) then [] else [last])
  }

  /** `r` is `t` with at most the `quota_usage` column changed. */
  predicate UsageOnly(t: Table, r: Table)
  {
    && |r| == |t|
    && forall i :: 0 <= i < |t| ==>
         r[i].accountId == t[i].accountId && r[i].token == t[i].token && r[i].quota == t[i].quota
  }

  /** UPDATE token SET quota_usage = ... WHERE w. */
  function Update(t: Table, w: Where, u: UsageUpdate): (r: Table)
    ensures |r| == |t|
    ensures UsageOnly(t, r)
    ensures forall i :: 0 <= i < |t| && !Matches(t[i], w) ==> r[i] == t[i]
    ensures forall i :: 0 <= i < |t| && Matches(t[i], w) ==>
              r[i].quotaUsage == Assign(u, t[i].quotaUsage)
  {
    seq(|t|, i requires 0 <= i < |t| =>
      if Matches(t[i], w) then t[i].(quotaUsage := Assign(u, t[i].quotaUsage)) else t[i])
  }

  /** DELETE on a table with one more row at the end. */
  lemma DeleteSnoc(t: Table, row: Row, w: Where)
    ensures Delete(t + [row], w) == Delete(t, w) + (if Matches(row, w) then [] else [row])
  {
    assert (t + [row])[..|t|] == t;
  }

  /** Deleting from a concatenation deletes from each part: the survivors keep their order. */
  lemma {:induction false} DeleteAppend(a: Table, b: Table, w: Where)
    ensures Delete(a + b, w) == Delete(a, w) + Delete(b, w)
    decreases |b|
  {
    if |b| == 0 {
      assert a + b == a;
    } else {
      var init, last := b[..|b| - 1], b[|b| - 1];
      var tail: Table := if Matches(last, w) then [] else [last];
      assert b == init + [last];
      assert a + b == (a + init) + [last];
      DeleteSnoc(a + init, last, w);
      DeleteSnoc(init, last, w);
      DeleteAppend(a, init, w);
      var x, y := Delete(a, w), Delete(init, w);
      assert Delete(a + b, w) == (x + y) + tail;
      assert Delete(b, w) == y + tail;
      AppendAssoc(x, y, tail);
    }
  }

  /** Concatenation of sequences is associative. */
  lemma AppendAssoc<T>(x: seq<T>, y: seq<T>, z: seq<T>)
    ensures (x + y) + z == x + (y + z)
  {
  }

  /** The rows DELETE leaves are exactly the rows of `t` that do not satisfy `w`. */
  lemma {:induction false} DeleteMembers(t: Table, w: Where)
    ensures forall row :: row in Delete(t, w) <==> row in t && !Matches(row, w)
    decreases |t|
  {
    if |t| > 0 {
      var init, last := t[..|t| - 1], t[|t| - 1];
      assert t == init + [last];
      DeleteMembers(init, w);
    }
  }

  /** A table in which nothing satisfies `w` is left as it is by DELETE. */
  lemma {:induction false} DeleteNothing(t: Table, w: Where)
    requires forall j :: 0 <= j < |t| ==> !Matches(t[j], w)
    ensures Delete(t, w) == t
    decreases |t|
  {
    if |t| > 0 {
      var init, last := t[..|t| - 1], t[|t| - 1];
      forall j | 0 <= j < |init|
        ensures !Matches(init[j], w)
      {
        assert init[j] == t[j];
      }
      DeleteNothing(init, w);
      assert !Matches(last, w);
      assert init + [last] == t;
    }
  }

  /** DELETE is idempotent. */
  lemma DeleteTwice(t: Table, w: Where)
    ensures Delete(Delete(t, w), w) == Delete(t, w)
  {
    var r := Delete(t, w);
    DeleteMembers(t, w);
    forall j | 0 <= j < |r|
      ensures !Matches(r[j], w)
    {
      assert r[j] in r;
    }
    DeleteNothing(r, w);
  }

  /** Changing only `quota_usage` keeps every WHERE clause selecting the same rows. */
  lemma UsageOnlyKeepsWhere(t: Table, r: Table, v: Where)
    requires UsageOnly(t, r)
    ensures First(r, v) == First(t, v)
    ensures Count(r, v) == Count(t, v)
  {
    assert forall i :: 0 <= i < |t| ==> (Matches(r[i], v) <==> Matches(t[i], v));
    FirstAgrees(t, r, v);
    CountAgrees(t, r, v);
  }

  /** UPDATE changes only `quota_usage`, so every WHERE clause selects the same rows afterwards. */
  lemma UpdateKeepsFirst(t: Table, w: Where, u: UsageUpdate, v: Where)
    ensures First(Update(t, w, u), v) == First(t, v)
    ensures Count(Update(t, w, u), v) == Count(t, v)
  {
    UsageOnlyKeepsWhere(t, Update(t, w, u), v);
  }

  /** Resetting the usage of rows already reset changes nothing. */
  lemma ResetTwice(t: Table, w: Where)
    ensures Update(Update(t, w, ResetToZero), w, ResetToZero) == Update(t, w, ResetToZero)
  {
  }

  /** Two tables whose rows satisfy `v` at the same positions have the same first match. */
  lemma FirstAgrees(t: Table, r: Table, v: Where)
    requires |r| == |t|
    requires forall i :: 0 <= i < |t| ==> (Matches(r[i], v) <==> Matches(t[i], v))
    ensures First(r, v) == First(t, v)
  {
  }

  /** ... and the same count. */
  lemma {:induction false} CountAgrees(t: Table, r: Table, v: Where)
    requires |r| == |t|
    requires forall i :: 0 <= i < |t| ==> (Matches(r[i], v) <==> Matches(t[i], v))
    ensures Count(r, v) == Count(t, v)
    decreases |t|
  {
    if |t| > 0 {
      var n := |t| - 1;
      var t', r' := t[..n], r[..n];
      forall i | 0 <= i < n
        ensures Matches(r'[i], v) <==> Matches(t'[i], v)
      {
        assert r'[i] == r[i] && t'[i] == t[i];
      }
      CountAgrees(t', r', v);
      var extra := if Matches(t[n], v) then 1 else 0;
      assert Count(t, v) == Count(t', v) + extra;
      assert Count(r, v) == Count(r', v) + extra by {
        assert Matches(r[n], v) <==> Matches(t[n], v);
      }
    }
  }
}

=== FILE: token_db.dfy ===
/**
 The package build (db/token.go): `ValidateToken` with its day-1 reset and
 the error-returning `GetTokens`. The other operations of that file are the
 shared ones in module Gateway.
 */
module TokenDb {
  import opened Wrappers
  import opened Crypto
  import opened Model
  import opened Store
  import opened Gateway

  /** The day of the month, as `time.Now().Day()` reports it. */
  type Day = d: int | 1 <= d <= 31 witness 1

  /**
   Validate a presented token. On the first day of the month the usage of the
   presented token is zeroed first; then the quota check runs.
   */
  function ValidateToken(t: Table, key: Key, presented: string, day: Day, failing: set<Stmt>)
    : (r: Effect<Reply<Verdict>>)
    // Off day 1 this is the legacy check, date-independent.
    ensures day != 1 ==> r == QuotaCheck(t, key, presented, failing)
    // On day 1 a committed reset comes first, and stays whatever the check then does.
    ensures day == 1 && ResetUsage !in failing ==>
              r == QuotaCheck(Update(t, TokenIs(Enc(key, presented)), ResetToZero), key, presented, failing)
    // A failed reset reports 1 with the error and changes nothing.
    ensures day == 1 && ResetUsage in failing ==>
              r == Effect(Reply(LimitExceeded, Some(StoreFailure(ResetUsage))), t)
    // Unknown token: nothing changes; unauthorized unless the reset itself failed.
    ensures First(t, TokenIs(Enc(key, presented))).None? ==>
              && r.table == t
              && (day != 1 || ResetUsage !in failing ==> r.result.value == Unauthorized)
    // Only the usage of the presented token's rows changes.
    ensures UsageOnly(t, r.table)
    ensures forall i :: 0 <= i < |t| && t[i].token != Enc(key, presented) ==> r.table[i] == t[i]
  {
    var c := Enc(key, presented);
    if day == 1 then
      if ResetUsage in failing then
        Effect(Reply(LimitExceeded, Some(StoreFailure(ResetUsage))), t)
      else
        var reset := Update(t, TokenIs(c), ResetToZero);
        UpdateKeepsFirst(t, TokenIs(c), ResetToZero, TokenIs(c));
        QuotaCheck(reset, key, presented, failing)
    else
      QuotaCheck(t, key, presented, failing)
  }

  /** On day 1 a known token with a positive quota is admitted and every row of it ends with usage 1. */
  lemma DayOneAdmits(t: Table, key: Key, presented: string)
    requires First(t, TokenIs(Enc(key, presented))).Some?
    requires t[First(t, TokenIs(Enc(key, presented))).value].quota > 0
    ensures ValidateToken(t, key, presented, 1, {}).result == Reply(Authorized, None)
    ensures forall i :: 0 <= i < |t| && t[i].token == Enc(key, presented) ==>
              ValidateToken(t, key, presented, 1, {}).table[i].quotaUsage == 1
  {
    var c := Enc(key, presented);
    var reset := Update(t, TokenIs(c), ResetToZero);
    var after := Update(reset, TokenIs(c), AddOne);
    DayOneEffect(t, key, presented);
    forall j | 0 <= j < |t| && t[j].token == c
      ensures after[j].quotaUsage == 1
    {
      assert reset[j].quotaUsage == 0;
    }
  }

  /** The day-1 call on a known limited token is the reset followed by one admission. */
  lemma DayOneEffect(t: Table, key: Key, presented: string)
    requires First(t, TokenIs(Enc(key, presented))).Some?
    requires t[First(t, TokenIs(Enc(key, presented))).value].quota > 0
    ensures var reset := Update(t, TokenIs(Enc(key, presented)), ResetToZero);
            ValidateToken(t, key, presented, 1, {}) ==
              Effect(Reply(Authorized, None), Update(reset, TokenIs(Enc(key, presented)), AddOne))
  {
    var c := Enc(key, presented);
    var i := First(t, TokenIs(c)).value;
    var reset := Update(t, TokenIs(c), ResetToZero);
    UpdateKeepsFirst(t, TokenIs(c), ResetToZero, TokenIs(c));
    assert reset[i].quotaUsage == 0;
    AdmissionCounts(reset, key, presented, {});
    assert ValidateToken(t, key, presented, 1, {}) == QuotaCheck(reset, key, presented, {});
  }

  /**
   A token whose deciding row has a negative quota (the create call accepts any
   integer) is never admitted, on any day, once its usage is not negative.
   */
  lemma NegativeQuotaRefused(t: Table, key: Key, presented: string, day: Day, failing: set<Stmt>)
    requires ResetUsage !in failing && SelectByToken !in failing
    requires First(t, TokenIs(Enc(key, presented))).Some?
    requires t[First(t, TokenIs(Enc(key, presented))).value].quota < 0
    requires t[First(t, TokenIs(Enc(key, presented))).value].quotaUsage >= 0
    ensures ValidateToken(t, key, presented, day, failing).result == Reply(LimitExceeded, None)
    ensures forall i :: 0 <= i < |t| ==>
              ValidateToken(t, key, presented, day, failing).table[i].quotaUsage ==
                (if day == 1 && t[i].token == Enc(key, presented) then 0 else t[i].quotaUsage)
  {
    var c := Enc(key, presented);
    var i := First(t, TokenIs(c)).value;
    if day == 1 {
      var reset := Update(t, TokenIs(c), ResetToZero);
      assert ValidateToken(t, key, presented, day, failing) == Effect(Reply(LimitExceeded, None), reset) by {
        UpdateKeepsFirst(t, TokenIs(c), ResetToZero, TokenIs(c));
        assert reset[i].quota == t[i].quota;
        RefusalKeepsTable(reset, key, presented, failing);
        assert ValidateToken(t, key, presented, day, failing) == QuotaCheck(reset, key, presented, failing);
      }
    } else {
      RefusalKeepsTable(t, key, presented, failing);
    }
  }

  /**
   A token whose deciding row has quota 0 is admitted on any day and its usage
   is never counted: rows end as they were, or as the day-1 reset left them.
   */
  lemma UnlimitedNotCounted(t: Table, key: Key, presented: string, day: Day, failing: set<Stmt>)
    requires ResetUsage !in failing && SelectByToken !in failing
    requires First(t, TokenIs(Enc(key, presented))).Some?
    requires t[First(t, TokenIs(Enc(key, presented))).value].quota == 0
    ensures ValidateToken(t, key, presented, day, failing).result == Reply(Authorized, None)
    ensures forall i :: 0 <= i < |t| ==>
              ValidateToken(t, key, presented, day, failing).table[i].quotaUsage ==
                (if day == 1 && t[i].token == Enc(key, presented) then 0 else t[i].quotaUsage)
  {
    var c := Enc(key, presented);
    var i := First(t, TokenIs(c)).value;
    if day == 1 {
      var reset := Update(t, TokenIs(c), ResetToZero);
      assert ValidateToken(t, key, presented, day, failing) == Effect(Reply(Authorized, None), reset) by {
        UpdateKeepsFirst(t, TokenIs(c), ResetToZero, TokenIs(c));
        assert reset[i].quota == t[i].quota;
        UnlimitedKeepsTable(reset, key, presented, failing);
        assert ValidateToken(t, key, presented, day, failing) == QuotaCheck(reset, key, presented, failing);
      }
    } else {
      UnlimitedKeepsTable(t, key, presented, failing);
    }
  }

  /** All credentials, or the error when the query fails; undecryptable tokens read as "". */
  method GetTokens(t: Table, key: Key, failing: set<Stmt>) returns (r: Reply<seq<Token>>)
    ensures SelectAll in failing ==> r == Reply([], Some(StoreFailure(SelectAll)))
    ensures SelectAll !in failing ==> r.err == None && |r.value| == |t|
    ensures SelectAll !in failing ==>
              forall i :: 0 <= i < |t| ==>
                && r.value[i].accountId == t[i].accountId
                && r.value[i].quota == t[i].quota
                && r.value[i].quotaUsage == t[i].quotaUsage
                && (Dec(key, t[i].token).Some? ==> Enc(key, r.value[i].token) == t[i].token)
                && (Dec(key, t[i].token).None? ==> r.value[i].token == "")
  {
    if SelectAll in failing {
      return Reply([], Some(StoreFailure(SelectAll)));
    }
    var tokens := ScanRows(t, key);
    r := Reply(tokens, None);
  }
}

=== FILE: wrappers.dfy ===
/** A value that may be absent: a lookup that found nothing, or a NULL column. */
module Wrappers {

  datatype Option<T> = None | Some(value: T)
}
